=== FILE: README.md ===
# OMAP DRM driver core: topology resolver, connect decision, commit bookkeeping

A Dafny model of three sequential pieces of the OMAP display driver
(`drivers/gpu/drm/omapdrm/omap_drv.c`), with the properties its code and comments promise.

- **Display topology resolver** (`omap_modeset_init`, `channel_used`,
  `omap_modeset_create_crtc`, `get_connector_type`). The model caps the
  number of CRTCs at `min3(num_crtc, num_mgrs, num_ovls)`. It walks the DSS
  displays in discovery order. Every connected display gets an encoder and a
  connector. While the cap has not been reached, a display also gets a CRTC
  on its output's DISPC channel, unless that channel is already taken. The
  fallback pass then adds CRTCs on the lowest free managers up to the cap, or
  fails with `-ENOMEM`. The remaining overlays become free planes. Each
  encoder's `possible_crtcs` mask is computed last. Displays are
  `seq<Display>`. The CRTCs are a `seq<nat>` of channels indexed by CRTC id.
  (modules `Channels`, `Topology`)
- **Display-connect decision** (`omap_connect_dssdevs`,
  `dssdev_with_alias_exists`). The inputs are the `/aliases` property names
  and the registered devices, each with what its driver's `connect`
  returns. The output is the return code, how many devices had `connect`
  called, and whether every device was disconnected again. (module `Connect`)
- **Commit bookkeeping** (`omap_atomic_commit`, `omap_atomic_is_pending`,
  the tail of `omap_atomic_complete`, `dev_preclose`). The pending CRTCs are
  a `set<nat>`. A submission fails before touching anything, waits, or is
  accepted. An accepted commit marks its CRTCs pending and stays in flight
  until it is completed and releases them. A synchronous commit is completed
  inline by its submitter. An asynchronous one is completed by a work item
  on the system work queue. That queue keeps no order, so commits in flight
  may complete in any order. `dev_preclose` disowns the closing
  file's events and credits their length back to the file's event space.
  (modules `Commit`, `Events`)

The blocking `wait_event` in `omap_atomic_commit` is modelled as an outcome.
`Submit` returns `Blocked` when a CRTC of the commit is still pending, and the
precondition of `Acquire` is that none is. The driver tests the pending set
and then sets it under two separate acquisitions of the commit lock. Two
submitters are kept apart there only because their callers hold the DRM
modeset locks of the CRTCs involved. The model makes wait, test and set one
atomic step. Completion is a separate step (`RunAt`), for synchronous commits
as well. So while a synchronous submitter is still completing its commit
inline, its CRTCs are pending, and an overlapping submitter waits
(`Commit.OverlapWaits`).

Two facts about the code worth stating:

- `omap_connect_dssdevs` can only return 0 or `-EPROBE_DEFER`. The cleanup
  path returns the connect result that sent it there, and that result is
  always `-EPROBE_DEFER`. `Connect.ConnectDssdevs` proves this.
- The fallback pass cannot put a second CRTC on a channel the discovery pass
  already claimed: it asks `channel_used` before every creation.
  `Topology.Fill` proves the channels stay distinct.

## Model

| member | source | states |
|---|---|---|
| `Channels.ChannelUsed` | drivers/gpu/drm/omapdrm/omap_drv.c:234-247 | true exactly when some CRTC created so far is on the given channel |
| `Channels.FreeManager` | drivers/gpu/drm/omapdrm/omap_drv.c:508-514 | returns the lowest manager id below `num_mgrs` that no CRTC uses; returns None exactly when every manager below `num_mgrs` is in use |
| `Channels.UnusedCount` | drivers/gpu/drm/omapdrm/omap_drv.c:506-518 | with distinct CRTCs, all on managers below `num_mgrs`, exactly `num_mgrs` minus the number of CRTCs managers are left for the fallback pass |
| `Topology.GetConnectorType` | drivers/gpu/drm/omapdrm/omap_drv.c:222-232 | HDMI displays get HDMI-A connectors, DVI displays get DVI-D connectors, every other type gets Unknown, in both directions |
| `Topology.DiscoverOneKeepsInv` | drivers/gpu/drm/omapdrm/omap_drv.c:430-500 | one discovery iteration keeps the invariant: at most `cap` CRTCs, on distinct channels, each with primary plane id = CRTC id, each on a channel a connected display prefers; every connected display has its encoder and connector; a connected display whose channel got no CRTC was seen only once the cap was reached, so every CRTC is on a channel preferred by an earlier connected display (first come, first served) |
| `Topology.AddOutput` | drivers/gpu/drm/omapdrm/omap_drv.c:439-462 | one encoder for the display's channel with no CRTCs yet is appended, and one connector of the display's connector type whose encoder is that new encoder; CRTCs, planes and the earlier encoders and connectors are unchanged |
| `Topology.CreateCrtc` | drivers/gpu/drm/omapdrm/omap_drv.c:317-338 | CRTC `id` is appended on `channel` together with its primary plane `id`; earlier CRTCs and planes, encoders and connectors are unchanged |
| `Topology.DiscoverOne` | drivers/gpu/drm/omapdrm/omap_drv.c:430-500 | a disconnected display changes nothing; a connected one gets exactly one new encoder and connector; the CRTC channels change as the reference step `DiscoveredAfter` says (a new CRTC only for a connected display, below the cap, on an unclaimed channel) |
| `Topology.DiscoverFrom` | drivers/gpu/drm/omapdrm/omap_drv.c:430-500 | the discovery loop establishes that invariant over all displays, and the CRTCs already made stay a prefix of the result |
| `Topology.Discovered` | drivers/gpu/drm/omapdrm/omap_drv.c:426-500 | the discovery pass never creates more than the cap; its CRTCs are on distinct channels preferred by connected displays; it gives every connected display a CRTC on its channel unless the cap had already been reached when that display was seen, in which case all CRTCs go to channels of earlier connected displays; CRTC id `k` is on the `k`-th distinct channel preferred by the connected displays in discovery order, up to the cap (the closed form `FirstCome`) |
| `Topology.Fill` | drivers/gpu/drm/omapdrm/omap_drv.c:502-526 | on success there are exactly `cap` CRTCs on distinct channels; each added CRTC is on the lowest manager unused by the CRTCs before it; it fails, always with `-ENOMEM`, exactly when the CRTCs so far plus the unused managers are fewer than the cap |
| `Topology.AddOverlays` | drivers/gpu/drm/omapdrm/omap_drv.c:528-540 | the overlays from the first non-CRTC id up to `num_ovls - 1` become free planes whose ids equal their positions; earlier planes are unchanged |
| `Topology.PossibleCrtcs` | drivers/gpu/drm/omapdrm/omap_drv.c:550-562 | an encoder's mask is 0 exactly when no CRTC is on its channel; otherwise it is the single bit `1 << id` of the lowest CRTC id on that channel |
| `Topology.SetPossibleCrtcs` | drivers/gpu/drm/omapdrm/omap_drv.c:542-565 | every encoder keeps its display and channel and gets a mask that is 0 exactly when no CRTC is on its channel, and otherwise the single bit of the lowest CRTC id on it |
| `Topology.ModesetInit` | drivers/gpu/drm/omapdrm/omap_drv.c:402-565 | on success: exactly `min3(num_crtc, num_mgrs, num_ovls)` CRTCs with ids 0..n-1 on distinct channels; `num_ovls` planes, plane k has id k and is primary exactly for k < n; one encoder and connector per connected display, attached and in order; every encoder mask as above; the discovered CRTCs come first and the rest sit on the lowest free managers. Fails only with `-ENOMEM`, exactly when the managers run out |
| `Topology.ModesetInitSucceeds` | drivers/gpu/drm/omapdrm/omap_drv.c:514-518 | when every connected display's channel is below `num_mgrs`, `omap_modeset_init` cannot fail: the "no managers left" branch is unreachable |
| `Topology.FirstOccurrencesFacts` | drivers/gpu/drm/omapdrm/omap_drv.c:474-499 | the preferred channels with repeats dropped contain no channel twice, and exactly the channels of the input |
| `Topology.FirstComeStep` | drivers/gpu/drm/omapdrm/omap_drv.c:471-499 | one iteration of the discovery loop turns the first-come list of the displays before it into that of the displays up to and including it |
| `Topology.DiscoverFromFirstCome` | drivers/gpu/drm/omapdrm/omap_drv.c:430-500 | from any display onwards, the discovery loop turns the first-come list of the displays seen so far into the first-come list of all displays, fixing each CRTC's id as well as its channel |
| `Topology.DistinctPreferencesUnique` | drivers/gpu/drm/omapdrm/omap_drv.c:474-499 | when no two connected displays prefer the same channel, dropping repeats leaves the list of preferred channels as it is |
| `Topology.PreferencesHonoured` | drivers/gpu/drm/omapdrm/omap_drv.c:474-499 | when no two connected displays prefer the same channel and there are no more of them than the cap, CRTC k is on the channel of the k-th connected display |
| `Connect.AliasExists` | drivers/gpu/drm/omapdrm/omap_drv.c:256-268 | true exactly when a registered device carries that exact alias |
| `Connect.AliasesPresentFrom` | drivers/gpu/drm/omapdrm/omap_drv.c:278-287 | the alias loop passes exactly when every alias named `display*` has a device |
| `Connect.ConnectFrom` | drivers/gpu/drm/omapdrm/omap_drv.c:289-314 | the connect loop stops at the first `-EPROBE_DEFER` and returns it, with all devices disconnected; other errors are only warned about; with no deferral every device is tried and the result is 0 exactly when some device connected |
| `Connect.ConnectDssdevs` | drivers/gpu/drm/omapdrm/omap_drv.c:270-315 | result is 0 or `-EPROBE_DEFER`. A missing `display*` alias defers before any connect is attempted. Otherwise the first deferral undoes everything and is returned, and without a deferral the probe goes ahead exactly when some device connected |
| `Connect.ConnectSucceedsIff` | drivers/gpu/drm/omapdrm/omap_drv.c:278-305 | probing goes ahead exactly when all `display*` aliases have devices, no device defers and at least one connects |
| `Events.Preclose` | drivers/gpu/drm/omapdrm/omap_drv.c:939-946 | only events owned by the closing file change; each loses its owner; the file's event space grows by their total length; list length and order are kept and every other event is unchanged |
| `Events.DisownLeavesNothingOwned` | drivers/gpu/drm/omapdrm/omap_drv.c:940-944 | afterwards the closing file owns no event and is owed no more event space |
| `Events.DisownKeepsOthers` | drivers/gpu/drm/omapdrm/omap_drv.c:941-944 | every event not owned by the closing file is unchanged at its position, and every other file's credit is unchanged |
| `Events.DisownKeepsLength` | drivers/gpu/drm/omapdrm/omap_drv.c:935-946 | events are unlinked from their file, not removed: the summed length of the events is unchanged |
| `Events.DisownIdempotent` | drivers/gpu/drm/omapdrm/omap_drv.c:940-944 | disowning twice for the same file is the same as once |
| `Commit.EventSlots` | drivers/gpu/drm/omapdrm/omap_drv.c:191-197 | the indices of the CRTC states that carry an event, each listed once, in increasing order |
| `Commit.SlotEventsMembers` | drivers/gpu/drm/omapdrm/omap_drv.c:189-198 | events read off one per listed slot, from a list that holds every slot carrying an event, are exactly the events of the state's CRTCs |
| `Commit.StateEvents` | drivers/gpu/drm/omapdrm/omap_drv.c:189-198 | one entry per CRTC state that carries an event, in CRTC index order: entry `k` is the event of the `k`-th such state, so no event is queued twice |
| `Commit.CommitMask` | drivers/gpu/drm/omapdrm/omap_drv.c:178-181 | the commit mask is exactly the set of indices of the CRTCs present in the state |
| `Commit.IsPending` | drivers/gpu/drm/omapdrm/omap_drv.c:139-149 | true exactly when some CRTC of the commit is still pending |
| `Commit.Acquire` | drivers/gpu/drm/omapdrm/omap_drv.c:183-187 | only when no CRTC of the mask is pending, the mask is added to the pending set and nothing else is |
| `Commit.Release` | drivers/gpu/drm/omapdrm/omap_drv.c:121-124 | completion clears the commit's CRTCs and leaves every other pending CRTC as it was |
| `Commit.Submit` | drivers/gpu/drm/omapdrm/omap_drv.c:151-213 | a plane-preparation error is returned as is and an allocation failure as `-ENOMEM`, both before the pending set is touched; the submitter waits exactly when a CRTC of the commit is pending, and otherwise the commit is accepted; an accepted commit appends its CRTC events to the list in CRTC order, marks its CRTCs pending and joins the commits in flight, recorded as completed by a work item (asynchronous) or by its submitter (synchronous) |
| `Commit.RunAt` | drivers/gpu/drm/omapdrm/omap_drv.c:121-126 | any commit in flight may complete next: it leaves the commits in flight, the others keep their order, its CRTCs leave the pending set, and the event list is untouched |
| `Commit.AcceptThenComplete` | drivers/gpu/drm/omapdrm/omap_drv.c:183-187 | a commit accepted and then completed, as a synchronous submitter does inline before returning (:206-207, :121-123), leaves the pending set and the commits in flight as they were before; only its events stay queued |
| `Commit.InitialInv` | drivers/gpu/drm/omapdrm/omap_drv.c:759-772 | the zero-filled bookkeeping of a fresh `priv`, with an empty event list, satisfies the one-commit-per-CRTC invariant |
| `Commit.SubmitKeepsInv` | drivers/gpu/drm/omapdrm/omap_drv.c:183-187 | accepting a commit, synchronous or asynchronous, keeps pending equal to the CRTCs of the commits in flight, with no CRTC in two of them |
| `Commit.QueuedRemove` | drivers/gpu/drm/omapdrm/omap_drv.c:121-126 | with pairwise disjoint commits, taking any one out removes exactly its CRTCs from the CRTCs of all commits in flight |
| `Commit.RunAtKeepsInv` | drivers/gpu/drm/omapdrm/omap_drv.c:121-126 | completing any commit in flight, in whatever order, keeps that invariant |
| `Commit.OverlapWaits` | drivers/gpu/drm/omapdrm/omap_drv.c:183 | a commit sharing a CRTC with a commit in flight, synchronous or asynchronous, waits |
| `Commit.DisjointProceeds` | drivers/gpu/drm/omapdrm/omap_drv.c:183-187 | a commit sharing no CRTC with any commit in flight goes through without waiting |
| `Commit.ReleaseUndoesAcquire` | drivers/gpu/drm/omapdrm/omap_drv.c:122-123 | completion clears exactly the bits acquisition set (setting then clearing the commit's bits restores the pending set) |

## Left out

- Topology.ModesetInit: requires `num_crtc >= 0`. The module parameter (omap_drv.c:37-40) is a signed int that is never range-checked. With a negative value, the guard `id == num_crtcs` at :471 never fires and the cap is ignored; the model does not cover that case.
- Topology.ModesetInit: the failures of `omap_encoder_init`, `omap_connector_init` and `omap_plane_init` (:441-454, :324-326, :534-536) are allocation calls into code that is not part of this model, and so is the failure of `omap_modeset_init_properties` (:416-418), which returns before any CRTC exists. Only the channel-exhaustion `-ENOMEM` is modelled.
- `omap_modeset_init_properties` (:340-400), `drm_mode_config_init`, the IRQ install and the mode-config limits (:571-582) are thin wrappers over DRM calls.
- The array capacities behind the `BUG_ON`s at :330, :456-457 and :538 are declared in omap_drv.h, which is not part of this model.
- Topology.PossibleCrtcs: `possible_crtcs` is a 32-bit mask. The model uses an unbounded `1 << id`; CRTC ids stay far below 32.
- Commit.CommitMask: the model treats `drm_crtc_index(state->crtcs[i])` as `i`, because DRM stores each CRTC's state at its own index. It also ignores the 32-bit width of `commit->crtcs`.
- The hardware application of a commit (:106-119) and `omap_atomic_wait_for_completion` (:80-98) are DISPC and DRM helper calls. A completion timeout there is only a warning (:94-96) and never changes the result.
- `drm_atomic_helper_prepare_planes`, `drm_atomic_helper_cleanup_planes` and `drm_atomic_helper_swap_state` are DRM helpers. The result of `drm_atomic_helper_prepare_planes` is the parameter `prepareRet`. The parameter `allocOk` says whether the `kzalloc` of the commit object (:164-169) succeeded. The cleanup and the swap are not modelled.
- The spinlocks, `wait_event`/`wake_up_all` and `schedule_work` on the system workqueue (:183, :126, :204) are concurrency primitives. They become the atomic steps `Submit`, `Blocked` and `RunAt`, with the commits in flight as a sequence any element of which may complete next. The inline completion of a synchronous commit (:206-207) is the `RunAt` step its submitter takes on its own commit; the model does not tie that step to the submitter returning. The ordered `priv->wq` (:769, :850) is created and destroyed but never used for commits.
- Delivering or freeing events (a disowned event becoming a no-op) happens in CRTC and DRM core code, which is not part of this model.
- Events.Preclose: `event_space` and the event lengths are unbounded integers; the model does not consider overflow.
- The `omap_dss_get_device`/`omap_dss_put_device` reference counting and `dev_warn`/`dev_err` logging have no effect on results.
- The GEM ioctls, mmap fault handling and prime hooks (:597-734, :958-1015) are buffer-object I/O.
- Load/unload, open/lastclose/postclose, PM suspend/resume and module init/exit (:750-956, :1094-1238) are lifecycle glue.
- The SGX plugin ioctl registration (:1019-1090) is optional extension glue. Its bounds check `nr > ARRAY_SIZE(ioctls)` at :1033 admits `nr == ARRAY_SIZE`.

=== FILE: base.dfy ===
/** Small shared vocabulary: optional values, results carrying a kernel
    error code, and the two errno values the driver core returns. */
module Base {

  datatype Option<+T> = None | Some(value: T)

  /** A value or a (negative) kernel error code. */
  datatype Result<+T> = Success(value: T) | Failure(code: int)

  /** errno values from the kernel headers; the driver returns their negation. */
  const ENOMEM: int := 12
  const EPROBE_DEFER: int := 517
}

=== FILE: channels.dfy ===
/** The DISPC output channels (overlay managers) and which of them the
    CRTCs created so far have claimed. A list of CRTCs is a `seq<nat>`
    whose element `i` is the channel of the CRTC with id `i`. */
module Channels {
  import opened Base

  /** No channel is claimed by two CRTCs. */
  predicate Distinct(crtcs: seq<nat>) {
    forall i, j :: 0 <= i < j < |crtcs| ==> crtcs[i] != crtcs[j]
  }

  /** `channel_used`: scans the CRTCs lowest id first for one on `channel`. */
  function ChannelUsed(crtcs: seq<nat>, channel: nat): (used: bool)
    ensures used <==> channel in crtcs
  {
    if |crtcs| == 0 then false
    else
      assert crtcs == [crtcs[0]] + crtcs[1..];
      crtcs[0] == channel || ChannelUsed(crtcs[1..], channel)
  }

  /** `c` is the lowest manager below `numMgrs` that no CRTC uses. */
  predicate IsLowestUnused(crtcs: seq<nat>, c: nat, numMgrs: nat) {
    && c < numMgrs
    && c !in crtcs
    && forall c': nat :: c' < c ==> c' in crtcs
  }

  function FreeManagerFrom(crtcs: seq<nat>, from: nat, numMgrs: nat): (r: Option<nat>)
    requires forall c: nat :: c < from ==> c in crtcs
    ensures r.Some? ==> IsLowestUnused(crtcs, r.value, numMgrs)
    ensures r.None? ==> forall c: nat :: c < numMgrs ==> c in crtcs
    decreases numMgrs - from
  {
    if from >= numMgrs then None
    else if !ChannelUsed(crtcs, from) then Some(from)
    else FreeManagerFrom(crtcs, from + 1, numMgrs)
  }

  /** The search for a free manager in the fallback pass of
      `omap_modeset_init`: the lowest unused manager id, or None when all
      `numMgrs` managers already drive a CRTC. */
  function FreeManager(crtcs: seq<nat>, numMgrs: nat): (r: Option<nat>)
    ensures r.Some? ==> IsLowestUnused(crtcs, r.value, numMgrs)
    ensures r.None? <==> forall c: nat :: c < numMgrs ==> c in crtcs
  {
    FreeManagerFrom(crtcs, 0, numMgrs)
  }

  /** The managers below `numMgrs` that no CRTC in `crtcs` uses. */
  ghost function Unused(crtcs: seq<nat>, numMgrs: nat): set<nat> {
    set c: nat | c < numMgrs && c !in crtcs
  }

  /** With no CRTC at all, every one of the `numMgrs` managers is unused. */
  lemma {:induction false} AllUnused(numMgrs: nat)
    ensures |Unused([], numMgrs)| == numMgrs
  {
    if numMgrs == 0 {
      assert Unused([], 0) == {};
    } else {
      AllUnused(numMgrs - 1);
      assert Unused([], numMgrs) == Unused([], numMgrs - 1) + {numMgrs - 1};
    }
  }

  /** Claiming an unused manager removes exactly that manager from the unused set. */
  lemma ClaimShrinksUnused(crtcs: seq<nat>, c: nat, numMgrs: nat)
    requires c < numMgrs && c !in crtcs
    ensures c in Unused(crtcs, numMgrs)
    ensures Unused(crtcs + [c], numMgrs) == Unused(crtcs, numMgrs) - {c}
    ensures |Unused(crtcs + [c], numMgrs)| + 1 == |Unused(crtcs, numMgrs)|
  {
    var before := Unused(crtcs, numMgrs);
    var after := Unused(crtcs + [c], numMgrs);
    assert after == before - {c};
    assert before == after + {c};
  }

  /** When every CRTC sits on a distinct manager below `numMgrs`, exactly
      `numMgrs - |crtcs|` managers are left unused. */
  lemma {:induction false} UnusedCount(crtcs: seq<nat>, numMgrs: nat)
    requires Distinct(crtcs)
    requires forall k :: 0 <= k < |crtcs| ==> crtcs[k] < numMgrs
    ensures |Unused(crtcs, numMgrs)| + |crtcs| == numMgrs
  {
    if |crtcs| == 0 {
      AllUnused(numMgrs);
    } else {
      var init := crtcs[..|crtcs| - 1];
      var c := crtcs[|crtcs| - 1];
      assert crtcs == init + [c];
      UnusedCount(init, numMgrs);
      ClaimShrinksUnused(init, c, numMgrs);
    }
  }
}

=== FILE: commit.dfy ===
/** The atomic commit path of the driver: `omap_atomic_commit`,
    `omap_atomic_is_pending` and the pending-mask update at the end of
    `omap_atomic_complete`. A commit waits until none of its CRTCs has a
    commit in flight, marks them pending, queues its CRTC events, and is
    then completed, either inline by the submitting thread (a synchronous
    commit) or by a work item on the system work queue (an asynchronous
    one); completion clears its CRTCs from the pending set again. Both kinds
    stay in flight, and their CRTCs pending, from acquisition to completion.
    The system work queue keeps no order between items, so commits in flight
    may complete in any order.

    The source tests the pending set and then sets it under two separate
    acquisitions of the commit lock; exclusion between two submitters
    relies on their callers holding the DRM modeset locks of the CRTCs
    involved. The model takes wait, test and set as one atomic step. */
module Commit {
  import opened Base
  import opened Events

  /** The new state of one CRTC in a commit, with its optional completion event. */
  datatype CrtcUpdate = CrtcUpdate(event: Option<Event>)

  /** An atomic state: slot `i` describes the CRTC with index `i` when that CRTC takes part. */
  type AtomicState = seq<Option<CrtcUpdate>>

  /** A commit in flight: the state it applies, its CRTC mask, and whether
      a work item completes it (`async`) or the submitting thread does. */
  datatype Work = Work(state: AtomicState, crtcs: set<nat>, async: bool)

  /** The commit bookkeeping of the driver: the CRTCs with a commit in
      flight, the list of pending CRTC events, and the commits accepted but
      not yet completed, in submission order (which says nothing about the
      order in which they complete). */
  datatype Scheduler = Scheduler(pending: set<nat>, events: seq<Event>, queue: seq<Work>)

  /** The result of one submission: an error before anything changed, a
      submitter asleep in `wait_event` because one of its CRTCs is busy, or
      the accepted commit and the new bookkeeping. */
  datatype SubmitOutcome = Failed(code: int) | Blocked | Accepted(next: Scheduler)

  function CommitMaskUpTo(state: AtomicState, n: nat): (mask: set<nat>)
    requires n <= |state|
    ensures forall i :: i in mask <==> 0 <= i < n && state[i].Some?
  {
    if n == 0 then {}
    else CommitMaskUpTo(state, n - 1) + (if state[n - 1].Some? then {n - 1} else {})
  }

  /** The `commit->crtcs` mask: the index of every CRTC present in the state. */
  function CommitMask(state: AtomicState): (mask: set<nat>)
    ensures forall i :: i in mask <==> 0 <= i < |state| && state[i].Some?
  {
    CommitMaskUpTo(state, |state|)
  }

  /** Indices of the CRTC states that carry an event, in index order. */
  function EventSlots(state: AtomicState): (slots: seq<nat>)
    ensures forall k :: 0 <= k < |slots| ==>
      slots[k] < |state| && state[slots[k]].Some? && state[slots[k]].value.event.Some?
    ensures forall i :: 0 <= i < |state| && state[i].Some? && state[i].value.event.Some? ==> i in slots
    ensures forall k, l :: 0 <= k < l < |slots| ==> slots[k] < slots[l]
  {
    if |state| == 0 then []
    else
      var n := |state| - 1;
      EventSlots(state[..n]) + (if state[n].Some? && state[n].value.event.Some? then [n] else [])
  }

  /** The events of the state's CRTCs, in CRTC index order: entry `k` is
      the event of the `k`-th CRTC state that carries one. */
  function StateEvents(state: AtomicState): (events: seq<Event>)
    ensures |events| == |EventSlots(state)| <= |state|
    ensures forall k :: 0 <= k < |events| ==> state[EventSlots(state)[k]].value.event == Some(events[k])
    ensures forall e :: e in events <==>
      exists i :: 0 <= i < |state| && state[i].Some? && state[i].value.event == Some(e)
  {
    if |state| == 0 then []
    else
      var n := |state| - 1;
      var last := state[n];
      var prev := StateEvents(state[..n]);
      var prevSlots := EventSlots(state[..n]);
      var events := prev + (if last.Some? && last.value.event.Some? then [last.value.event.value] else []);
      var slots := EventSlots(state);
      assert slots == prevSlots + (if last.Some? && last.value.event.Some? then [n] else []);
      assert forall k :: 0 <= k < |events| ==> state[slots[k]].value.event == Some(events[k]) by {
        forall k | 0 <= k < |events|
          ensures state[slots[k]].value.event == Some(events[k])
        {
          if k < |prev| {
            assert slots[k] == prevSlots[k] && state[..n][prevSlots[k]] == state[slots[k]];
          }
        }
      }
      SlotEventsMembers(state, slots, events);
      events
  }

  /** Events read off slot by slot from a complete list of event slots are
      exactly the events of the state. */
  lemma SlotEventsMembers(state: AtomicState, slots: seq<nat>, events: seq<Event>)
    requires |events| == |slots|
    requires forall k :: 0 <= k < |slots| ==> slots[k] < |state| && state[slots[k]].Some?
    requires forall k :: 0 <= k < |events| ==> state[slots[k]].value.event == Some(events[k])
    requires forall i :: 0 <= i < |state| && state[i].Some? && state[i].value.event.Some? ==> i in slots
    ensures forall e :: e in events <==>
      exists i :: 0 <= i < |state| && state[i].Some? && state[i].value.event == Some(e)
  {
    forall e | e in events
      ensures exists i :: 0 <= i < |state| && state[i].Some? && state[i].value.event == Some(e)
    {
      var k :| 0 <= k < |events| && events[k] == e;
      assert state[slots[k]].value.event == Some(e);
    }
    forall e, i | 0 <= i < |state| && state[i].Some? && state[i].value.event == Some(e)
      ensures e in events
    {
      var k :| 0 <= k < |slots| && slots[k] == i;
      assert events[k] == e;
    }
  }

  /** `omap_atomic_is_pending`: some CRTC of the mask still has a commit in flight. */
  function IsPending(pending: set<nat>, mask: set<nat>): (busy: bool)
    ensures busy <==> exists c :: c in mask && c in pending
  {
    !(pending !! mask)
  }

  /** Marking the CRTCs of a commit pending, once none of them was. */
  function Acquire(pending: set<nat>, mask: set<nat>): (r: set<nat>)
    requires !IsPending(pending, mask)
    ensures mask <= r && pending <= r
    ensures forall c :: c in r ==> c in pending || c in mask
  {
    pending + mask
  }

  /** Clearing the CRTCs of a completed commit: `pending &= ~commit->crtcs`. */
  function Release(pending: set<nat>, mask: set<nat>): (r: set<nat>)
    ensures r !! mask
    ensures forall c :: c !in mask ==> (c in r <==> c in pending)
  {
    pending - mask
  }

  /** `omap_atomic_commit` up to the hand-over of the commit. `prepareRet` is
      what preparing the planes returned, `allocOk` whether the commit object
      could be allocated. An accepted commit, synchronous or not, is in
      flight afterwards; its completion is the separate step `RunAt`, taken
      by the submitter itself for a synchronous commit. */
  function Submit(s: Scheduler, state: AtomicState, prepareRet: int, allocOk: bool, async: bool): (r: SubmitOutcome)
    ensures prepareRet != 0 ==> r == Failed(prepareRet)
    ensures prepareRet == 0 && !allocOk ==> r == Failed(-ENOMEM)
    ensures prepareRet == 0 && allocOk ==> (r == Blocked <==> IsPending(s.pending, CommitMask(state)))
    ensures prepareRet == 0 && allocOk && !IsPending(s.pending, CommitMask(state)) ==> r.Accepted?
    ensures r.Accepted? ==>
      && r.next.events == s.events + StateEvents(state)
      && r.next.pending == s.pending + CommitMask(state)
      && r.next.queue == s.queue + [Work(state, CommitMask(state), async)]
  {
    if prepareRet != 0 then Failed(prepareRet)
    // the prepared planes are cleaned up again before returning
    else if !allocOk then Failed(-ENOMEM)
    else
      var mask := CommitMask(state);
      if IsPending(s.pending, mask) then Blocked
      else
        var s1 := s.(pending := Acquire(s.pending, mask), events := s.events + StateEvents(state));
        Accepted(s1.(queue := s1.queue + [Work(state, mask, async)]))
  }

  /** Commit `k` in flight runs to completion, by its work item or, for a
      synchronous commit, by its submitter; any commit in flight may be the
      next one to complete. */
  function RunAt(s: Scheduler, k: nat): (r: Scheduler)
    requires k < |s.queue|
    ensures |r.queue| == |s.queue| - 1 && r.events == s.events
    ensures forall i :: 0 <= i < |r.queue| ==> r.queue[i] == if i < k then s.queue[i] else s.queue[i + 1]
    ensures r.pending == s.pending - s.queue[k].crtcs
  {
    Scheduler(Release(s.pending, s.queue[k].crtcs), s.events, s.queue[..k] + s.queue[k + 1..])
  }

  // ---------------------------------------------------------------------
  // The pending-set invariant

  /** The CRTCs of all commits in flight. */
  function Queued(queue: seq<Work>): set<nat> {
    if |queue| == 0 then {} else queue[0].crtcs + Queued(queue[1..])
  }

  /** No two commits in flight share a CRTC. */
  predicate PairwiseDisjoint(queue: seq<Work>) {
    forall i, j :: 0 <= i < j < |queue| ==> queue[i].crtcs !! queue[j].crtcs
  }

  /** A CRTC is pending exactly when a commit in flight, synchronous or
      asynchronous, touches it, and no two commits in flight touch the same
      CRTC: every CRTC has at most one commit in flight. */
  predicate Inv(s: Scheduler) {
    s.pending == Queued(s.queue) && PairwiseDisjoint(s.queue)
  }

  lemma {:induction false} QueuedMembers(queue: seq<Work>, c: nat)
    ensures c in Queued(queue) <==> exists i :: 0 <= i < |queue| && c in queue[i].crtcs
  {
    if |queue| > 0 {
      QueuedMembers(queue[1..], c);
      if c in Queued(queue[1..]) {
        var i :| 0 <= i < |queue[1..]| && c in queue[1..][i].crtcs;
        assert c in queue[i + 1].crtcs;
      }
    }
  }

  lemma {:induction false} QueuedAppend(queue: seq<Work>, w: Work)
    ensures Queued(queue + [w]) == Queued(queue) + w.crtcs
  {
    if |queue| > 0 {
      assert (queue + [w])[1..] == queue[1..] + [w];
      QueuedAppend(queue[1..], w);
    } else {
      assert (queue + [w])[1..] == [];
    }
  }

  /** The bookkeeping starts out empty, which satisfies the invariant. */
  lemma InitialInv()
    ensures Inv(Scheduler({}, [], []))
  {
  }

  /** Accepting a commit keeps every CRTC to at most one commit in flight. */
  lemma SubmitKeepsInv(s: Scheduler, state: AtomicState, prepareRet: int, allocOk: bool, async: bool)
    requires Inv(s)
    requires Submit(s, state, prepareRet, allocOk, async).Accepted?
    ensures Inv(Submit(s, state, prepareRet, allocOk, async).next)
  {
    var mask := CommitMask(state);
    QueuedAppend(s.queue, Work(state, mask, async));
    forall i | 0 <= i < |s.queue|
      ensures s.queue[i].crtcs !! mask
    {
      forall c | c in s.queue[i].crtcs
        ensures c !in mask
      {
        QueuedMembers(s.queue, c);
      }
    }
  }

  lemma RemovedMember(queue: seq<Work>, k: nat, c: nat)
    requires PairwiseDisjoint(queue) && k < |queue|
    requires c in Queued(queue[..k] + queue[k + 1..])
    ensures c in Queued(queue) && c !in queue[k].crtcs
  {
    var rest := queue[..k] + queue[k + 1..];
    QueuedMembers(rest, c);
    var i :| 0 <= i < |rest| && c in rest[i].crtcs;
    var j := if i < k then i else i + 1;
    assert rest[i] == queue[j];
    assert queue[j].crtcs !! queue[k].crtcs;
    QueuedMembers(queue, c);
  }

  lemma KeptMember(queue: seq<Work>, k: nat, c: nat)
    requires k < |queue|
    requires c in Queued(queue) && c !in queue[k].crtcs
    ensures c in Queued(queue[..k] + queue[k + 1..])
  {
    var rest := queue[..k] + queue[k + 1..];
    QueuedMembers(queue, c);
    var j :| 0 <= j < |queue| && c in queue[j].crtcs;
    var i := if j < k then j else j - 1;
    assert rest[i] == queue[j];
    QueuedMembers(rest, c);
  }

  /** Taking commit `k` out of a queue whose commits are pairwise disjoint
      removes exactly its CRTCs from the CRTCs of all of them. */
  lemma {:induction false} QueuedRemove(queue: seq<Work>, k: nat)
    requires PairwiseDisjoint(queue) && k < |queue|
    ensures Queued(queue[..k] + queue[k + 1..]) == Queued(queue) - queue[k].crtcs
  {
    var rest := queue[..k] + queue[k + 1..];
    forall c | c in Queued(rest)
      ensures c in Queued(queue) - queue[k].crtcs
    {
      RemovedMember(queue, k, c);
    }
    forall c | c in Queued(queue) - queue[k].crtcs
      ensures c in Queued(rest)
    {
      KeptMember(queue, k, c);
    }
  }

  /** Completing any commit in flight keeps the invariant. */
  lemma RunAtKeepsInv(s: Scheduler, k: nat)
    requires Inv(s) && k < |s.queue|
    ensures Inv(RunAt(s, k))
  {
    QueuedRemove(s.queue, k);
  }

  /** While a commit is in flight, synchronous or not, any commit sharing
      one of its CRTCs is held in `wait_event`. */
  lemma OverlapWaits(s: Scheduler, k: nat, state: AtomicState, async: bool)
    requires Inv(s) && k < |s.queue|
    requires exists c :: c in s.queue[k].crtcs && c in CommitMask(state)
    ensures Submit(s, state, 0, true, async) == Blocked
  {
    var c :| c in s.queue[k].crtcs && c in CommitMask(state);
    QueuedMembers(s.queue, c);
  }

  /** A commit whose CRTCs all differ from those of every commit in flight
      goes through without waiting. */
  lemma DisjointProceeds(s: Scheduler, state: AtomicState, async: bool)
    requires Inv(s)
    requires forall k :: 0 <= k < |s.queue| ==> s.queue[k].crtcs !! CommitMask(state)
    ensures Submit(s, state, 0, true, async).Accepted?
  {
    forall c | c in CommitMask(state)
      ensures c !in s.pending
    {
      QueuedMembers(s.queue, c);
    }
  }

  /** A commit accepted and then completed, as a synchronous submitter does
      inline before returning, leaves the pending set and the commits in
      flight as they were before; only its events remain queued. */
  lemma {:induction false} AcceptThenComplete(s: Scheduler, state: AtomicState, prepareRet: int, allocOk: bool, async: bool)
    requires Submit(s, state, prepareRet, allocOk, async).Accepted?
    ensures var n := Submit(s, state, prepareRet, allocOk, async).next;
      |n.queue| == |s.queue| + 1 &&
      RunAt(n, |s.queue|) == Scheduler(s.pending, s.events + StateEvents(state), s.queue)
  {
    var n := Submit(s, state, prepareRet, allocOk, async).next;
    assert n.queue[..|s.queue|] == s.queue;
    assert n.queue[|s.queue| + 1..] == [];
    assert s.pending !! CommitMask(state);
  }

  /** Completion clears exactly what acquisition set. */
  lemma ReleaseUndoesAcquire(pending: set<nat>, mask: set<nat>)
    requires !IsPending(pending, mask)
    ensures Release(Acquire(pending, mask), mask) == pending
  {
  }
}

=== FILE: connect.dfy ===
/** The display-connect decision of `omap_connect_dssdevs`: every
    `display*` alias of the device tree must name a registered DSS device,
    then each device is connected in turn; a deferral from any device undoes
    everything, and no successful connection at all defers the probe too. */
module Connect {
  import opened Base

  /** A registered DSS device: its alias and what its driver's `connect`
      returns (0 or a negative error code). */
  datatype DssDevice = DssDevice(alias: string, connectResult: int)

  /** The return code, how many devices had `connect` called (always a
      prefix of the device list), and whether every device was disconnected
      again before returning. */
  datatype ConnectOutcome = ConnectOutcome(code: int, attempted: nat, disconnectedAll: bool)

  /** `strncmp(name, "display", 7) == 0`: the name starts with "display". */
  predicate IsDisplayAlias(name: string) {
    |name| >= 7 && name[..7] == "display"
  }

  /** Some `display*` alias names no registered device. */
  predicate MissingDisplayAlias(aliases: Option<seq<string>>, devices: seq<DssDevice>) {
    && aliases.Some?
    && exists a :: 0 <= a < |aliases.value| && IsDisplayAlias(aliases.value[a]) &&
         forall d :: 0 <= d < |devices| ==> devices[d].alias != aliases.value[a]
  }

  function AliasExistsFrom(devices: seq<DssDevice>, alias: string, from: nat): (found: bool)
    requires from <= |devices|
    ensures found <==> exists d :: from <= d < |devices| && devices[d].alias == alias
    decreases |devices| - from
  {
    if from == |devices| then false
    else devices[from].alias == alias || AliasExistsFrom(devices, alias, from + 1)
  }

  /** `dssdev_with_alias_exists`: a registered device carries exactly this alias. */
  function AliasExists(devices: seq<DssDevice>, alias: string): (found: bool)
    ensures found <==> exists d :: 0 <= d < |devices| && devices[d].alias == alias
  {
    AliasExistsFrom(devices, alias, 0)
  }

  function AliasesPresentFrom(aliases: seq<string>, devices: seq<DssDevice>, from: nat): (ok: bool)
    requires from <= |aliases|
    ensures ok <==> forall a :: from <= a < |aliases| && IsDisplayAlias(aliases[a]) ==> AliasExists(devices, aliases[a])
    decreases |aliases| - from
  {
    if from == |aliases| then true
    else if !IsDisplayAlias(aliases[from]) then AliasesPresentFrom(aliases, devices, from + 1)
    else if !AliasExists(devices, aliases[from]) then false
    else AliasesPresentFrom(aliases, devices, from + 1)
  }

  /** The connect loop over `devices[i..]`; `noDisplays` records that no
      earlier device connected. */
  function ConnectFrom(devices: seq<DssDevice>, i: nat, noDisplays: bool): (r: ConnectOutcome)
    requires i <= |devices|
    ensures r.code == 0 || r.code == -EPROBE_DEFER
    ensures r.disconnectedAll <==> exists j :: i <= j < |devices| && devices[j].connectResult == -EPROBE_DEFER
    ensures r.disconnectedAll ==>
      && r.code == -EPROBE_DEFER
      && i < r.attempted <= |devices|
      && devices[r.attempted - 1].connectResult == -EPROBE_DEFER
      && forall j :: i <= j < r.attempted - 1 ==> devices[j].connectResult != -EPROBE_DEFER
    ensures !r.disconnectedAll ==>
      && r.attempted == |devices|
      && (r.code == 0 <==> !noDisplays || exists j :: i <= j < |devices| && devices[j].connectResult == 0)
    decreases |devices| - i
  {
    if i == |devices| then
      ConnectOutcome(if noDisplays then -EPROBE_DEFER else 0, i, false)
    else
      var res := devices[i].connectResult;
      if res == -EPROBE_DEFER then ConnectOutcome(res, i + 1, true)
      // any other error is only warned about
      else if res != 0 then ConnectFrom(devices, i + 1, noDisplays)
      else ConnectFrom(devices, i + 1, false)
  }

  /** `omap_connect_dssdevs`. `aliases` is the property names of the
      `/aliases` node, or None when the node does not exist. */
  function ConnectDssdevs(aliases: Option<seq<string>>, devices: seq<DssDevice>): (r: ConnectOutcome)
    ensures r.code == 0 || r.code == -EPROBE_DEFER
    ensures MissingDisplayAlias(aliases, devices) ==> r == ConnectOutcome(-EPROBE_DEFER, 0, false)
    ensures !MissingDisplayAlias(aliases, devices) ==>
      (r.disconnectedAll <==> exists j :: 0 <= j < |devices| && devices[j].connectResult == -EPROBE_DEFER)
    ensures !MissingDisplayAlias(aliases, devices) && r.disconnectedAll ==>
      && r.code == -EPROBE_DEFER
      && 0 < r.attempted <= |devices|
      && devices[r.attempted - 1].connectResult == -EPROBE_DEFER
      && forall j :: 0 <= j < r.attempted - 1 ==> devices[j].connectResult != -EPROBE_DEFER
    ensures !MissingDisplayAlias(aliases, devices) && !r.disconnectedAll ==>
      && r.attempted == |devices|
      && (r.code == 0 <==> exists j :: 0 <= j < |devices| && devices[j].connectResult == 0)
  {
    if aliases.Some? && !AliasesPresentFrom(aliases.value, devices, 0) then
      ConnectOutcome(-EPROBE_DEFER, 0, false)
    else
      ConnectFrom(devices, 0, true)
  }

  /** The probe goes ahead (0) exactly when every `display*` alias has its
      device, no device asked to defer, and at least one device connected. */
  lemma ConnectSucceedsIff(aliases: Option<seq<string>>, devices: seq<DssDevice>)
    ensures ConnectDssdevs(aliases, devices).code == 0 <==>
      && !MissingDisplayAlias(aliases, devices)
      && (forall j :: 0 <= j < |devices| ==> devices[j].connectResult != -EPROBE_DEFER)
      && exists j :: 0 <= j < |devices| && devices[j].connectResult == 0
  {
  }
}

=== FILE: events.dfy ===
/** The driver's list of pending CRTC events and `dev_preclose`, which
    disowns the events of a closing file so that a commit still in flight
    never queues an event to a file that is gone. */
module Events {
  import opened Base

  /** A DRM file (an open device handle), by identity. */
  type File = nat

  /** A pending event: the file it will be delivered to (None once disowned)
      and the room it takes in that file's event space. */
  datatype Event = Event(owner: Option<File>, length: nat)

  /** The event as it is after `file` has disowned it. */
  function Disowned(e: Event, file: File): Event {
    if e.owner == Some(file) then e.(owner := None) else e
  }

  /** The event list after `file` has disowned its events, position by position. */
  function Disown(events: seq<Event>, file: File): seq<Event> {
    seq(|events|, i requires 0 <= i < |events| => Disowned(events[i], file))
  }

  /** The total event space the events owned by `file` take. */
  function OwnedLength(events: seq<Event>, file: File): nat {
    if |events| == 0 then 0
    else
      var last := events[|events| - 1];
      OwnedLength(events[..|events| - 1], file) + (if last.owner == Some(file) then last.length else 0)
  }

  /** The summed length of all events, owned or not. */
  function TotalLength(events: seq<Event>): nat {
    if |events| == 0 then 0 else TotalLength(events[..|events| - 1]) + events[|events| - 1].length
  }

  /** `dev_preclose`: walks the event list in order; every event of `file`
      loses its owner and its length is credited back to the file's event
      space. */
  method Preclose(events: seq<Event>, file: File, eventSpace: int) returns (events': seq<Event>, eventSpace': int)
    ensures events' == Disown(events, file)
    ensures eventSpace' == eventSpace + OwnedLength(events, file)
  {
    events' := events;
    eventSpace' := eventSpace;
    var i := 0;
    while i < |events|
      invariant 0 <= i <= |events|
      invariant |events'| == |events|
      invariant forall k :: 0 <= k < i ==> events'[k] == Disowned(events[k], file)
      invariant forall k :: i <= k < |events| ==> events'[k] == events[k]
      invariant eventSpace' == eventSpace + OwnedLength(events[..i], file)
    {
      assert events[..i + 1][..i] == events[..i];
      if events'[i].owner == Some(file) {
        eventSpace' := eventSpace' + events'[i].length;
        events' := events'[i := events'[i].(owner := None)];
      }
      i := i + 1;
    }
    assert events[..i] == events;
  }

  /** After disowning, `file` owns no event and is owed no more space. */
  lemma {:induction false} DisownLeavesNothingOwned(events: seq<Event>, file: File)
    ensures OwnedLength(Disown(events, file), file) == 0
    ensures forall i :: 0 <= i < |events| ==> Disown(events, file)[i].owner != Some(file)
  {
    if |events| > 0 {
      var init := events[..|events| - 1];
      DisownLeavesNothingOwned(init, file);
      assert Disown(events, file)[..|events| - 1] == Disown(init, file);
    }
  }

  /** Disowning touches no other file's events or credit. */
  lemma {:induction false} DisownKeepsOthers(events: seq<Event>, file: File, other: File)
    requires other != file
    ensures forall i :: 0 <= i < |events| && events[i].owner != Some(file) ==> Disown(events, file)[i] == events[i]
    ensures OwnedLength(Disown(events, file), other) == OwnedLength(events, other)
  {
    if |events| > 0 {
      var init := events[..|events| - 1];
      DisownKeepsOthers(init, file, other);
      assert Disown(events, file)[..|events| - 1] == Disown(init, file);
    }
  }

  /** Disowning keeps every event, and so the summed length of the events:
      events are unlinked from their file, not removed. */
  lemma {:induction false} DisownKeepsLength(events: seq<Event>, file: File)
    ensures TotalLength(Disown(events, file)) == TotalLength(events)
  {
    if |events| > 0 {
      var init := events[..|events| - 1];
      DisownKeepsLength(init, file);
      assert Disown(events, file)[..|events| - 1] == Disown(init, file);
    }
  }

  /** A second `dev_preclose` for the same file changes nothing. */
  lemma DisownIdempotent(events: seq<Event>, file: File)
    ensures Disown(Disown(events, file), file) == Disown(events, file)
  {
  }
}

=== FILE: topology.dfy ===
/** The display topology resolver of `omap_modeset_init`: one encoder and
    connector per connected display, CRTCs on the displays' preferred DISPC
    channels up to a cap, the remaining CRTCs on the lowest free channels,
    the leftover overlays as free planes, and each encoder's
    `possible_crtcs` mask. */
module Topology {
  import opened Base
  import opened Channels

  /** The display types of the DSS; only HDMI and DVI get a specific connector type. */
  datatype DisplayType = Dpi | Dbi | Sdi | Dsi | Venc | Hdmi | Dvi

  datatype ConnectorType = ConnectorUnknown | ConnectorDviD | ConnectorHdmiA

  /** A discovered DSS display: whether it is connected, the DISPC channel of
      the output driving it (its preferred channel), and its type. */
  datatype Display = Display(connected: bool, channel: nat, kind: DisplayType)

  datatype PlaneType = Primary | Overlay

  /** A DRM plane backed by hardware overlay `id`. */
  datatype Plane = Plane(id: nat, kind: PlaneType)

  /** An encoder for display `display`, whose output uses `channel`;
      `possibleCrtcs` is a bit mask over CRTC ids. */
  datatype Encoder = Encoder(display: nat, channel: nat, possibleCrtcs: nat)

  /** A connector for display `display`, attached to encoder `encoder`. */
  datatype Connector = Connector(kind: ConnectorType, display: nat, encoder: nat)

  /** The mode-setting objects: `crtcs[i]` is the channel of the CRTC with id `i`. */
  datatype Modeset = Modeset(crtcs: seq<nat>, planes: seq<Plane>, encoders: seq<Encoder>, connectors: seq<Connector>)

  const Empty := Modeset([], [], [], [])

  /** `get_connector_type`. */
  function GetConnectorType(kind: DisplayType): (r: ConnectorType)
    ensures r == ConnectorHdmiA <==> kind == Hdmi
    ensures r == ConnectorDviD <==> kind == Dvi
    ensures r == ConnectorUnknown <==> kind !in {Hdmi, Dvi}
  {
    match kind
    case Hdmi => ConnectorHdmiA
    case Dvi => ConnectorDviD
    case _ => ConnectorUnknown
  }

  function Min3(a: int, b: int, c: int): (m: int)
    ensures m <= a && m <= b && m <= c
    ensures m == a || m == b || m == c
  {
    if a <= b && a <= c then a else if b <= c then b else c
  }

  function Pow2(k: nat): (p: nat)
    ensures p >= 1
  {
    if k == 0 then 1 else 2 * Pow2(k - 1)
  }

  // ---------------------------------------------------------------------
  // Reference definitions

  /** Indices of the connected displays among the first `n`, in discovery order. */
  function Connected(displays: seq<Display>, n: nat): (idx: seq<nat>)
    requires n <= |displays|
    ensures forall k :: 0 <= k < |idx| ==> idx[k] < n && displays[idx[k]].connected
    ensures forall j :: 0 <= j < n && displays[j].connected ==> j in idx
    ensures forall k, l :: 0 <= k < l < |idx| ==> idx[k] < idx[l]
  {
    if n == 0 then []
    else Connected(displays, n - 1) + (if displays[n - 1].connected then [n - 1] else [])
  }

  /** Some connected display among the first `n` prefers `channel`. */
  predicate Preferred(displays: seq<Display>, n: nat, channel: nat)
    requires n <= |displays|
  {
    exists j :: 0 <= j < n && displays[j].connected && displays[j].channel == channel
  }

  lemma PreferredGrows(displays: seq<Display>, i: nat, n: nat, channel: nat)
    requires i <= n <= |displays|
    requires Preferred(displays, i, channel)
    ensures Preferred(displays, n, channel)
  {
    var j :| 0 <= j < i && displays[j].connected && displays[j].channel == channel;
    assert 0 <= j < n;
  }

  /** Encoder `k` and connector `k` belong to display `idx[k]`, the connector
      has that display's connector type and is attached to encoder `k`. */
  predicate OutputsFor(displays: seq<Display>, m: Modeset, idx: seq<nat>) {
    && |m.encoders| == |idx|
    && |m.connectors| == |idx|
    && forall k :: 0 <= k < |idx| ==>
         && idx[k] < |displays|
         && m.encoders[k].display == idx[k]
         && m.encoders[k].channel == displays[idx[k]].channel
         && m.connectors[k] == Connector(GetConnectorType(displays[idx[k]].kind), idx[k], k)
  }

  /** CRTC `i` owns primary plane `i`. */
  predicate PrimaryLayout(m: Modeset) {
    && |m.planes| == |m.crtcs|
    && forall k :: 0 <= k < |m.planes| ==> m.planes[k] == Plane(k, Primary)
  }

  /** What holds while CRTCs are created: no more than `cap`, on distinct
      channels, each with its primary plane. */
  predicate Building(m: Modeset, cap: nat) {
    |m.crtcs| <= cap && Distinct(m.crtcs) && PrimaryLayout(m)
  }

  /** `id` is the lowest CRTC id whose channel is `channel`. */
  predicate IsLowestCrtcOn(crtcs: seq<nat>, channel: nat, id: nat) {
    && id < |crtcs|
    && crtcs[id] == channel
    && forall j :: 0 <= j < id ==> crtcs[j] != channel
  }

  // ---------------------------------------------------------------------
  // Operations

  /** `omap_modeset_create_crtc`: CRTC `id` on `channel` with primary plane `id`. */
  function CreateCrtc(m: Modeset, id: nat, channel: nat): (r: Modeset)
    requires id == |m.crtcs| == |m.planes|
    ensures |r.crtcs| == id + 1 && m.crtcs <= r.crtcs && r.crtcs[id] == channel
    ensures |r.planes| == id + 1 && m.planes <= r.planes && r.planes[id] == Plane(id, Primary)
    ensures r.encoders == m.encoders && r.connectors == m.connectors
  {
    m.(crtcs := m.crtcs + [channel], planes := m.planes + [Plane(id, Primary)])
  }

  /** The encoder and connector for display `index`, attached to each other:
      one encoder for the display's channel with no CRTCs yet, and one
      connector of the display's type whose encoder is that new encoder. */
  function AddOutput(m: Modeset, index: nat, d: Display): (r: Modeset)
    ensures r.crtcs == m.crtcs && r.planes == m.planes
    ensures m.encoders <= r.encoders && |r.encoders| == |m.encoders| + 1
    ensures r.encoders[|m.encoders|] == Encoder(index, d.channel, 0)
    ensures m.connectors <= r.connectors && |r.connectors| == |m.connectors| + 1
    ensures r.connectors[|m.connectors|].kind == GetConnectorType(d.kind)
    ensures r.connectors[|m.connectors|].display == index
    ensures r.connectors[|m.connectors|].encoder < |r.encoders|
    ensures r.encoders[r.connectors[|m.connectors|].encoder] == Encoder(index, d.channel, 0)
  {
    m.(encoders := m.encoders + [Encoder(index, d.channel, 0)],
       connectors := m.connectors + [Connector(GetConnectorType(d.kind), index, |m.encoders|)])
  }

  /** Every CRTC so far is on a channel some connected display among the first `i` prefers. */
  predicate AllPreferred(displays: seq<Display>, i: nat, crtcs: seq<nat>)
    requires i <= |displays|
  {
    forall k :: 0 <= k < |crtcs| ==> Preferred(displays, i, crtcs[k])
  }

  /** First come, first served: a connected display among the first `i`
      whose channel has no CRTC was skipped because the cap had already been
      reached when it was seen, so every CRTC is on a channel preferred by a
      display before it. */
  predicate Greedy(displays: seq<Display>, i: nat, cap: nat, crtcs: seq<nat>)
    requires i <= |displays|
  {
    forall j :: 0 <= j < i && Skipped(displays, j, crtcs) ==> |crtcs| == cap && AllPreferred(displays, j, crtcs)
  }

  /** Display `j` is connected but no CRTC is on its channel. */
  predicate Skipped(displays: seq<Display>, j: nat, crtcs: seq<nat>)
    requires j < |displays|
  {
    displays[j].connected && displays[j].channel !in crtcs
  }

  /** What the discovery pass has established after the first `i` displays. */
  predicate DiscoveryInv(displays: seq<Display>, i: nat, cap: nat, m: Modeset)
    requires i <= |displays|
  {
    && Building(m, cap)
    && OutputsFor(displays, m, Connected(displays, i))
    && AllPreferred(displays, i, m.crtcs)
    && Greedy(displays, i, cap, m.crtcs)
  }

  /** The CRTC channels after the discovery loop has looked at display `i`. */
  function DiscoveredAfter(d: Display, cap: nat, crtcs: seq<nat>): seq<nat> {
    if !d.connected || |crtcs| == cap || d.channel in crtcs then crtcs else crtcs + [d.channel]
  }

  lemma AllPreferredStep(displays: seq<Display>, i: nat, cap: nat, crtcs: seq<nat>)
    requires i < |displays|
    requires AllPreferred(displays, i, crtcs)
    ensures AllPreferred(displays, i + 1, DiscoveredAfter(displays[i], cap, crtcs))
  {
    var crtcs' := DiscoveredAfter(displays[i], cap, crtcs);
    forall k | 0 <= k < |crtcs'|
      ensures Preferred(displays, i + 1, crtcs'[k])
    {
      if k < |crtcs| {
        PreferredGrows(displays, i, i + 1, crtcs[k]);
      } else {
        assert displays[i].connected && displays[i].channel == crtcs'[k];
      }
    }
  }

  lemma GreedyStep(displays: seq<Display>, i: nat, cap: nat, crtcs: seq<nat>)
    requires i < |displays| && |crtcs| <= cap
    requires AllPreferred(displays, i, crtcs)
    requires Greedy(displays, i, cap, crtcs)
    ensures Greedy(displays, i + 1, cap, DiscoveredAfter(displays[i], cap, crtcs))
  {
    var d := displays[i];
    if d.connected && |crtcs| != cap && d.channel !in crtcs {
      // A display skipped earlier would mean the cap had been reached
      // already, so after this CRTC every connected display has its channel.
      var crtcs' := crtcs + [d.channel];
      forall j | 0 <= j < i && displays[j].connected
        ensures displays[j].channel in crtcs
      {
        assert Skipped(displays, j, crtcs) ==> |crtcs| == cap;
      }
      assert forall j :: 0 <= j < i + 1 && displays[j].connected ==> displays[j].channel in crtcs';
    }
  }

  lemma OutputsForStep(displays: seq<Display>, i: nat, m: Modeset)
    requires i < |displays|
    requires OutputsFor(displays, m, Connected(displays, i))
    ensures displays[i].connected ==> OutputsFor(displays, AddOutput(m, i, displays[i]), Connected(displays, i + 1))
    ensures !displays[i].connected ==> OutputsFor(displays, m, Connected(displays, i + 1))
  {
    if displays[i].connected {
      assert Connected(displays, i + 1) == Connected(displays, i) + [i];
    } else {
      assert Connected(displays, i + 1) == Connected(displays, i);
    }
  }

  lemma BuildingStep(m: Modeset, cap: nat, channel: nat)
    requires Building(m, cap) && |m.crtcs| < cap && channel !in m.crtcs
    ensures Building(CreateCrtc(m, |m.crtcs|, channel), cap)
  {
  }

  /** One iteration of the discovery loop of `omap_modeset_init`, for display `i`. */
  function DiscoverOne(displays: seq<Display>, i: nat, cap: nat, m: Modeset): (r: Modeset)
    requires i < |displays|
    requires |m.crtcs| == |m.planes|
    ensures r.crtcs == DiscoveredAfter(displays[i], cap, m.crtcs)
    ensures m.encoders <= r.encoders && m.connectors <= r.connectors
    ensures !displays[i].connected ==> r == m
    ensures displays[i].connected ==>
      && |r.encoders| == |m.encoders| + 1 && r.encoders[|m.encoders|].display == i
      && |r.connectors| == |m.connectors| + 1 && r.connectors[|m.connectors|].display == i
  {
    var d := displays[i];
    if !d.connected then m
    else
      var m1 := AddOutput(m, i, d);
      // Once `cap` CRTCs exist, later displays only get an encoder and a connector.
      if |m1.crtcs| == cap || ChannelUsed(m1.crtcs, d.channel) then m1
      else CreateCrtc(m1, |m1.crtcs|, d.channel)
  }

  lemma BuildingKept(displays: seq<Display>, i: nat, cap: nat, m: Modeset)
    requires i < |displays|
    requires Building(m, cap)
    ensures Building(DiscoverOne(displays, i, cap, m), cap)
  {
    var d := displays[i];
    if d.connected && |m.crtcs| != cap && d.channel !in m.crtcs {
      BuildingStep(AddOutput(m, i, d), cap, d.channel);
    }
  }

  /** One iteration of the discovery loop keeps the discovery invariant. */
  lemma DiscoverOneKeepsInv(displays: seq<Display>, i: nat, cap: nat, m: Modeset)
    requires i < |displays|
    requires DiscoveryInv(displays, i, cap, m)
    ensures DiscoveryInv(displays, i + 1, cap, DiscoverOne(displays, i, cap, m))
  {
    var r := DiscoverOne(displays, i, cap, m);
    BuildingKept(displays, i, cap, m);
    AllPreferredStep(displays, i, cap, m.crtcs);
    GreedyStep(displays, i, cap, m.crtcs);
    OutputsForStep(displays, i, m);
    assert OutputsFor(displays, r, Connected(displays, i + 1));
  }

  /** The discovery pass of `omap_modeset_init` over `displays[i..]`. */
  function DiscoverFrom(displays: seq<Display>, i: nat, cap: nat, m: Modeset): (r: Modeset)
    requires i <= |displays|
    requires DiscoveryInv(displays, i, cap, m)
    ensures DiscoveryInv(displays, |displays|, cap, r)
    ensures m.crtcs <= r.crtcs
    decreases |displays| - i
  {
    if i == |displays| then m
    else
      DiscoverOneKeepsInv(displays, i, cap, m);
      DiscoverFrom(displays, i + 1, cap, DiscoverOne(displays, i, cap, m))
  }

  /** Started on the first-come channels of the displays seen so far, the
      rest of the discovery pass ends on those of all displays. */
  lemma {:induction false} DiscoverFromFirstCome(displays: seq<Display>, i: nat, cap: nat, m: Modeset)
    requires i <= |displays|
    requires DiscoveryInv(displays, i, cap, m)
    requires m.crtcs == FirstCome(displays, i, cap)
    ensures DiscoverFrom(displays, i, cap, m).crtcs == FirstCome(displays, |displays|, cap)
    decreases |displays| - i
  {
    if i < |displays| {
      DiscoverOneKeepsInv(displays, i, cap, m);
      FirstComeStep(displays, i, cap);
      DiscoverFromFirstCome(displays, i + 1, cap, DiscoverOne(displays, i, cap, m));
    }
  }

  /** The CRTC channels chosen by the discovery pass alone. */
  function Discovered(displays: seq<Display>, cap: nat): (r: Modeset)
    ensures DiscoveryInv(displays, |displays|, cap, r)
    ensures r.crtcs == FirstCome(displays, |displays|, cap)
  {
    DiscoverFromFirstCome(displays, 0, cap, Empty);
    DiscoverFrom(displays, 0, cap, Empty)
  }

  /** The fallback pass of `omap_modeset_init`: more CRTCs, each on the
      lowest free manager, until there are `cap`; -ENOMEM when the managers
      run out first. */
  function Fill(m: Modeset, cap: nat, numMgrs: nat): (r: Result<Modeset>)
    requires Building(m, cap)
    ensures r.Success? ==>
      && Building(r.value, cap)
      && |r.value.crtcs| == cap
      && m.crtcs <= r.value.crtcs
      && r.value.encoders == m.encoders && r.value.connectors == m.connectors
      && forall k :: |m.crtcs| <= k < cap ==> IsLowestUnused(r.value.crtcs[..k], r.value.crtcs[k], numMgrs)
    ensures r.Failure? ==> r.code == -ENOMEM
    ensures r.Failure? <==> |m.crtcs| + |Unused(m.crtcs, numMgrs)| < cap
    decreases cap - |m.crtcs|
  {
    if |m.crtcs| >= cap then Success(m)
    else
      match FreeManager(m.crtcs, numMgrs)
      case None =>
        assert Unused(m.crtcs, numMgrs) == {};
        Failure(-ENOMEM)
      case Some(c) =>
        ClaimShrinksUnused(m.crtcs, c, numMgrs);
        var m1 := CreateCrtc(m, |m.crtcs|, c);
        var r := Fill(m1, cap, numMgrs);
        if r.Success? then
          assert r.value.crtcs[..|m1.crtcs|] == m1.crtcs;
          assert r.value.crtcs[..|m.crtcs|] == m.crtcs;
          r
        else r
  }

  /** The overlay loop of `omap_modeset_init`: overlays `id .. numOvls-1` become free planes. */
  function AddOverlays(m: Modeset, id: nat, numOvls: nat): (r: Modeset)
    requires |m.planes| == id
    ensures |r.planes| == if id <= numOvls then numOvls else id
    ensures r.planes[..id] == m.planes
    ensures forall k :: id <= k < |r.planes| ==> r.planes[k] == Plane(k, Overlay)
    ensures r.crtcs == m.crtcs && r.encoders == m.encoders && r.connectors == m.connectors
    decreases numOvls - id
  {
    if id >= numOvls then m
    else AddOverlays(m.(planes := m.planes + [Plane(id, Overlay)]), id + 1, numOvls)
  }

  function CrtcOnFrom(crtcs: seq<nat>, channel: nat, from: nat): (r: Option<nat>)
    requires from <= |crtcs|
    requires forall j :: 0 <= j < from ==> crtcs[j] != channel
    ensures r.Some? ==> IsLowestCrtcOn(crtcs, channel, r.value)
    ensures r.None? <==> channel !in crtcs
    decreases |crtcs| - from
  {
    if from == |crtcs| then None
    else if crtcs[from] == channel then Some(from)
    else CrtcOnFrom(crtcs, channel, from + 1)
  }

  /** The `possible_crtcs` mask of an encoder on `channel`: the bit of the
      first CRTC on that channel, or 0 when there is none. */
  function PossibleCrtcs(crtcs: seq<nat>, channel: nat): (mask: nat)
    ensures mask == 0 <==> channel !in crtcs
    ensures mask != 0 ==> exists id :: IsLowestCrtcOn(crtcs, channel, id) && mask == Pow2(id)
  {
    match CrtcOnFrom(crtcs, channel, 0)
    case None => 0
    case Some(id) => Pow2(id)
  }

  /** The last loop of `omap_modeset_init`: each encoder's `possible_crtcs`. */
  function SetPossibleCrtcs(m: Modeset): (r: Modeset)
    ensures r.crtcs == m.crtcs && r.planes == m.planes && r.connectors == m.connectors
    ensures |r.encoders| == |m.encoders|
    ensures forall k :: 0 <= k < |r.encoders| ==>
      && r.encoders[k].display == m.encoders[k].display
      && r.encoders[k].channel == m.encoders[k].channel
      && MaskMatches(r.crtcs, r.encoders[k])
  {
    m.(encoders := seq(|m.encoders|, k requires 0 <= k < |m.encoders| =>
         m.encoders[k].(possibleCrtcs := PossibleCrtcs(m.crtcs, m.encoders[k].channel))))
  }

  /** The topology `omap_modeset_init` builds, once all CRTCs exist. */
  predicate Complete(displays: seq<Display>, cap: nat, numOvls: nat, t: Modeset) {
    && |t.crtcs| == cap
    && Distinct(t.crtcs)
    && |t.planes| == numOvls
    && (forall k :: 0 <= k < numOvls ==> t.planes[k].id == k && (t.planes[k].kind == Primary <==> k < cap))
    && OutputsFor(displays, t, Connected(displays, |displays|))
    && forall k :: 0 <= k < |t.encoders| ==> MaskMatches(t.crtcs, t.encoders[k])
  }

  /** An encoder's mask is 0 when no CRTC is on its channel, and otherwise
      the single bit of the lowest CRTC id on that channel. */
  predicate MaskMatches(crtcs: seq<nat>, e: Encoder) {
    && (e.possibleCrtcs == 0 <==> e.channel !in crtcs)
    && (e.possibleCrtcs != 0 ==> exists id :: 0 <= id < |crtcs| && IsLowestCrtcOn(crtcs, e.channel, id) && e.possibleCrtcs == Pow2(id))
  }

  /** `omap_modeset_init`, from the computation of the CRTC cap to the
      `possible_crtcs` masks. `numCrtc` is the `num_crtc` module parameter,
      a signed int that the driver never range-checks: with a negative value
      the guard `id == num_crtcs` never fires and the cap is ignored. The
      model takes it as a count and so requires it to be non-negative. */
  function ModesetInit(displays: seq<Display>, numCrtc: int, numMgrs: nat, numOvls: nat): (r: Result<Modeset>)
    requires numCrtc >= 0
    ensures var cap := Min3(numCrtc, numMgrs, numOvls);
      r.Success? ==> Complete(displays, cap, numOvls, r.value)
    ensures var cap := Min3(numCrtc, numMgrs, numOvls);
      var found := Discovered(displays, cap).crtcs;
      r.Success? ==>
        && found <= r.value.crtcs
        && forall k :: |found| <= k < cap ==> IsLowestUnused(r.value.crtcs[..k], r.value.crtcs[k], numMgrs)
    ensures var cap := Min3(numCrtc, numMgrs, numOvls);
      var found := Discovered(displays, cap).crtcs;
      r.Failure? <==> |found| + |Unused(found, numMgrs)| < cap
    ensures r.Failure? ==> r.code == -ENOMEM
  {
    var cap := Min3(numCrtc, numMgrs, numOvls);
    match Fill(Discovered(displays, cap), cap, numMgrs)
    case Failure(code) => Failure(code)
    case Success(m) =>
      FinishComplete(displays, cap, numOvls, m);
      Success(SetPossibleCrtcs(AddOverlays(m, cap, numOvls)))
  }

  /** Once the CRTCs exist, adding the overlays and the masks completes the topology. */
  lemma FinishComplete(displays: seq<Display>, cap: nat, numOvls: nat, m: Modeset)
    requires Building(m, cap) && |m.crtcs| == cap && cap <= numOvls
    requires OutputsFor(displays, m, Connected(displays, |displays|))
    ensures Complete(displays, cap, numOvls, SetPossibleCrtcs(AddOverlays(m, cap, numOvls)))
  {
    var m1 := AddOverlays(m, cap, numOvls);
    var t := SetPossibleCrtcs(m1);
    assert forall k :: 0 <= k < cap ==> t.planes[k] == m.planes[k];
    forall k | 0 <= k < |t.encoders|
      ensures MaskMatches(t.crtcs, t.encoders[k])
    {
      assert t.encoders[k].possibleCrtcs == PossibleCrtcs(t.crtcs, t.encoders[k].channel);
    }
  }

  // ---------------------------------------------------------------------
  // Properties of the resolver

  /** With every connected display on a channel below `numMgrs` (each
      output is driven by one of the managers), the fallback pass never runs
      out of managers: `omap_modeset_init` cannot fail with -ENOMEM. */
  lemma ModesetInitSucceeds(displays: seq<Display>, numCrtc: int, numMgrs: nat, numOvls: nat)
    requires numCrtc >= 0
    requires forall j :: 0 <= j < |displays| && displays[j].connected ==> displays[j].channel < numMgrs
    ensures ModesetInit(displays, numCrtc, numMgrs, numOvls).Success?
  {
    var cap := Min3(numCrtc, numMgrs, numOvls);
    var found := Discovered(displays, cap).crtcs;
    forall k | 0 <= k < |found|
      ensures found[k] < numMgrs
    {
      assert Preferred(displays, |displays|, found[k]);
    }
    UnusedCount(found, numMgrs);
  }

  /** The channels the connected displays among the first `n` prefer, in discovery order. */
  function PreferredChannels(displays: seq<Display>, n: nat): seq<nat>
    requires n <= |displays|
  {
    if n == 0 then []
    else PreferredChannels(displays, n - 1) + (if displays[n - 1].connected then [displays[n - 1].channel] else [])
  }

  /** No two connected displays prefer the same channel. */
  predicate DistinctPreferences(displays: seq<Display>) {
    forall j1, j2 :: 0 <= j1 < j2 < |displays| && displays[j1].connected && displays[j2].connected ==>
      displays[j1].channel != displays[j2].channel
  }

  lemma {:induction false} PreferredChannelsArePreferred(displays: seq<Display>, i: nat)
    requires i <= |displays|
    ensures forall k :: 0 <= k < |PreferredChannels(displays, i)| ==> Preferred(displays, i, PreferredChannels(displays, i)[k])
  {
    if i > 0 {
      var pc := PreferredChannels(displays, i);
      var prev := PreferredChannels(displays, i - 1);
      PreferredChannelsArePreferred(displays, i - 1);
      forall k | 0 <= k < |pc|
        ensures Preferred(displays, i, pc[k])
      {
        if k < |prev| {
          PreferredGrows(displays, i - 1, i, prev[k]);
        } else {
          assert displays[i - 1].connected && displays[i - 1].channel == pc[k];
        }
      }
    }
  }

  lemma NewPreference(displays: seq<Display>, i: nat)
    requires i < |displays| && displays[i].connected
    requires DistinctPreferences(displays)
    ensures displays[i].channel !in PreferredChannels(displays, i)
  {
    var pc := PreferredChannels(displays, i);
    PreferredChannelsArePreferred(displays, i);
    forall k | 0 <= k < |pc|
      ensures pc[k] != displays[i].channel
    {
      assert Preferred(displays, i, pc[k]);
      var j :| 0 <= j < i && displays[j].connected && displays[j].channel == pc[k];
    }
  }

  /** When no two connected displays prefer the same channel and there are
      no more of them than the cap, CRTC `k` of the discovery pass is on the
      channel of the `k`-th connected display: every display gets a CRTC on
      its own preferred channel, in discovery order. */
  lemma PreferencesHonoured(displays: seq<Display>, cap: nat)
    requires DistinctPreferences(displays)
    requires |PreferredChannels(displays, |displays|)| <= cap
    ensures Discovered(displays, cap).crtcs == PreferredChannels(displays, |displays|)
  {
    DistinctPreferencesUnique(displays, |displays|);
  }

  /** With distinct preferences no channel repeats, so dropping repeats keeps the list as it is. */
  lemma {:induction false} DistinctPreferencesUnique(displays: seq<Display>, n: nat)
    requires n <= |displays|
    requires DistinctPreferences(displays)
    ensures FirstOccurrences(PreferredChannels(displays, n)) == PreferredChannels(displays, n)
  {
    if n > 0 {
      DistinctPreferencesUnique(displays, n - 1);
      var pc := PreferredChannels(displays, n - 1);
      if displays[n - 1].connected {
        NewPreference(displays, n - 1);
        var pc' := pc + [displays[n - 1].channel];
        assert PreferredChannels(displays, n) == pc';
        assert pc'[..|pc'| - 1] == pc;
      } else {
        assert PreferredChannels(displays, n) == pc;
      }
    }
  }

  /** The channels of `cs`, each kept at its first appearance. */
  function FirstOccurrences(cs: seq<nat>): seq<nat> {
    if |cs| == 0 then []
    else
      var fs := FirstOccurrences(cs[..|cs| - 1]);
      var c := cs[|cs| - 1];
      if c in fs then fs else fs + [c]
  }

  /** Dropping repeats leaves no channel twice and loses no channel. */
  lemma {:induction false} FirstOccurrencesFacts(cs: seq<nat>)
    ensures Distinct(FirstOccurrences(cs))
    ensures forall c :: c in FirstOccurrences(cs) <==> c in cs
  {
    if |cs| > 0 {
      var init := cs[..|cs| - 1];
      assert cs == init + [cs[|cs| - 1]];
      FirstOccurrencesFacts(init);
    }
  }

  /** The first `n` elements of `s`, or all of them when there are fewer. */
  function Take(s: seq<nat>, n: nat): (t: seq<nat>)
    ensures t <= s
    ensures |t| == if |s| <= n then |s| else n
  {
    if |s| <= n then s else s[..n]
  }

  /** The first-come rule in closed form: the channels preferred by the
      connected displays among the first `i`, each at its first appearance,
      cut off at the cap. Position `k` is the channel of CRTC id `k`. */
  function FirstCome(displays: seq<Display>, i: nat, cap: nat): seq<nat>
    requires i <= |displays|
  {
    Take(FirstOccurrences(PreferredChannels(displays, i)), cap)
  }

  lemma FirstComeStep(displays: seq<Display>, i: nat, cap: nat)
    requires i < |displays|
    ensures DiscoveredAfter(displays[i], cap, FirstCome(displays, i, cap)) == FirstCome(displays, i + 1, cap)
  {
    var d := displays[i];
    var pc := PreferredChannels(displays, i);
    if d.connected {
      var pc' := pc + [d.channel];
      assert PreferredChannels(displays, i + 1) == pc';
      assert pc'[..|pc'| - 1] == pc;
      var f := FirstOccurrences(pc);
      if |f| >= cap && d.channel !in f {
        assert (f + [d.channel])[..cap] == f[..cap];
      }
    } else {
      assert PreferredChannels(displays, i + 1) == pc;
    }
  }
}
